=== FILE: README.md ===
# Senior Laboral: the opportunity-discovery pipeline in Dafny

This project models the one piece of the Senior Laboral app with real control
flow: `findOpportunities` (index.tsx), which takes what a senior user types
about their skills and location and does the following:

1. It creates a profile record in the Directus store.
2. It asks the Gemini search model for job opportunities.
3. It attaches the raw answer to the profile.
4. It cuts a JSON object out of the answer and shows the opportunities in it.
5. It stores one `oportunidad` record per job, linked to the profile.

It also models the three store helpers in directus.ts that the pipeline calls:
`createProfile`, `updateProfileWithRawResults` and `createOportunidades`.

The pipeline is a pure function. `FindOpportunities(input, before, env)`
returns a `Run` with two parts:

- the display state after the run (`error`, `opportunities`,
  `groundingChunks`, `isLoading`);
- the ordered trace of external calls, each with its arguments.

The outside world is an `Env`. It holds:

- what each of the three store `fetch`es settles to (a rejection, or a
  response with its `ok` flag, status and `json()` outcome);
- what the model call settles to;
- `JSON.parse`, left uninterpreted.

The store helpers themselves are modelled from those fetch outcomes. Their
`try`/`catch` policies are written out:

- `createProfile` answers `null` on any failure;
- the other two helpers swallow every failure.

Each store call maps to its HTTP request (method, URL, headers, body) through
`RequestOf`.

Modules:

- `Wrappers`: `Option`.
- `Js`: the JavaScript semantics the code relies on. This covers
  - parsed JSON values and `undefined`;
  - truthiness;
  - property reads that throw on `null`/`undefined`;
  - `String(v)` and template literals;
  - `Array.prototype.join`, `trim`, `indexOf`/`lastIndexOf`, and `substring`
    with its bound clamping and swapping.
- `Extraction`: the first-`{`-to-last-`}` slicer.
- `Directus`: the store helpers, split into the request each one builds and
  what each makes of the response.
- `Discovery`: the job-to-draft mapping and the pipeline (`try` block,
  `catch`/`finally`, validation).
- `DiscoveryProperties`: lemmas relating a run to its environment.
- `DiscoveryExamples`: two complete runs with every outside outcome fixed.

Behaviours of the code worth knowing, each reproduced by the model:

- A failed opportunity batch is swallowed. `createOportunidades` catches
  everything (directus.ts:85-87), so the run still ends without an error
  (`StoreWriteOutcomesIgnored`).
- A failed `createProfile` does not surface the store's error. The helper
  turns every failure into `null` (directus.ts:35-37), and the pipeline
  reports its own message instead (`ProfileFailureStopsRun`).
- Display state that has already been published is not cleared when a later
  step fails:
  - the grounding chunks (index.tsx:76-78) stay (`RawUpdateFollowsAnswer`);
  - the opportunities list shown before a job fails to map (index.tsx:94)
    stays (`MissingSkillsAfterPublish`).
- An empty `opportunities` array still issues the batch call, with no records
  (`EmptyListStillPersisted`).
- A job without `skills` gets no default: `job.skills.join` throws, and no
  record is stored (`MissingSkillsAfterPublish`).
- `join` converts every skill with `String()`. A skill that is an object with
  its own `toString` key cannot be converted, so `join` throws a `TypeError`
  and no record is stored (`ObjectSkillRejected`). The same holds for a
  profile id of that shape in the raw-result update's URL: no request is sent
  (`UpdateRawResultsRequest`).
- When `JSON.parse` rejects the slice, the error slot shows the engine's own
  `SyntaxError` message, not a fixed text (`ParseFailureReported`).
- When the last `}` comes before the first `{`, `substring` swaps its bounds,
  and the text strictly between them is what gets parsed (`JsonSlice`,
  `SwappedBoundsExample`).

## Model

| member | source | states |
|---|---|---|
| Js.GetProp | directus.ts:34 | a property read throws exactly on `null`/`undefined`, with the engine's message; an object's own key yields its value, and a defined result only comes from an object that has the key |
| Js.IndexOf | index.tsx:82 | the result is -1 exactly when the character is absent, otherwise the position of its first occurrence |
| Js.LastIndexOf | index.tsx:83 | the result is -1 exactly when the character is absent, otherwise the position of its last occurrence |
| Js.TrimStart | index.tsx:28 | the result is a suffix of the input; everything cut is whitespace and the result does not start with whitespace |
| Js.TrimEnd | index.tsx:28 | the result is a prefix of the input; everything cut is whitespace and the result does not end with whitespace |
| Js.Digits | directus.ts:44 | the decimal digits of a natural number: at least one, all `0`-`9`, and a leading `0` exactly for zero |
| Js.DigitsRoundTrip | directus.ts:44 | reading the digits back as a decimal number gives the number itself |
| Js.NumberToString | directus.ts:44 | `String(n)` starts with `-` exactly for a negative number, and the digits after it read back as the magnitude, with no leading zero |
| Js.ToJsString | directus.ts:44 | `String(v)` fails exactly when the value is, or holds in an array, an object with its own `toString` key, and then with the engine's conversion `TypeError`; otherwise it gives `"null"`, `"true"`/`"false"`, a number's decimal text, a string itself, an array joined with `,`, or `"[object Object]"` |
| Js.TemplateString | directus.ts:44 | a template literal inserts `"undefined"` for `undefined` and otherwise exactly what `String(v)` gives, failing exactly where that fails |
| Js.ArrayJoin | index.tsx:101 | `join` succeeds exactly when every element converts to a string, and otherwise throws the conversion `TypeError`; no elements give `""` and one element gives that element's text, with `null` as the empty string |
| Js.JoinElement | index.tsx:101 | `join` renders a `null` element as the empty string and any other element as `String()` does, failing exactly where that conversion fails, with its `TypeError` |
| Js.ArrayJoinSnoc | index.tsx:101 | joining one more element appends the separator and that element's text, so the result is the elements' texts in order with the separator between them |
| Js.JoinNullExample | index.tsx:101 | `["a", null, "b"].join(", ")` is `"a, , b"` |
| Extraction.JsonSlice | index.tsx:82-89 | there is no slice exactly when the text lacks `{` or `}`; otherwise the slice runs from the first `{` through the last `}`, or lies strictly between them when `substring` swaps its bounds |
| Extraction.SliceIsBraced | index.tsx:82-89 | when the first `{` precedes the last `}`, the slice has exactly that length, starts with `{` and ends with `}` |
| Extraction.SliceIgnoresNoise | index.tsx:82-90 | text before the object with no `{`, and text after it with no `}`, is cut away: the slice is the object itself |
| Extraction.SliceIdempotent | index.tsx:82-89 | slicing an extracted object again returns it unchanged |
| Extraction.SwappedBoundsExample | index.tsx:89 | with the last `}` before the first `{`, `"}x{"` slices to `"x"` and `"}{"` to the empty string |
| Directus.CreateProfileRequest | directus.ts:18-27 | a POST to `{base}/items/perfiles` with bearer and JSON headers and body `{descripcion}` |
| Directus.CreateProfile | directus.ts:16-38 | `null` on a rejected fetch, a non-ok status, a failed body read, a `null` body, or a body whose `data` is `null` or missing; otherwise the `id` read from `data`; a truthy id implies an ok response whose body was read |
| Directus.UpdateRawResultsRequest | directus.ts:44-53 | a PATCH to `{base}/items/perfiles/{profileId}` with bearer and JSON headers and body `{resultados_raw}`, built exactly when the profile id converts to a string; otherwise the template literal's `TypeError` and no request |
| Directus.UpdateRawResultsTry | directus.ts:43-57 | the `try` block completes normally exactly when the URL can be built and the fetch resolved with an ok status |
| Directus.UpdateProfileWithRawResults | directus.ts:42-61 | the helper never throws, whatever the fetch does |
| Directus.WithProfile | directus.ts:65-68 | one record per draft, in order; each carries the profile id and, without it, is the draft unchanged |
| Directus.CreateOportunidadesRequest | directus.ts:70-78 | one POST to `{base}/items/oportunidades` carrying the whole batch, of any length, each record stamped with the profile id and otherwise unchanged |
| Directus.CreateOportunidadesTry | directus.ts:70-84 | the `try` block completes normally exactly on an ok status; a non-ok status whose error body is readable throws the HTTP error |
| Directus.CreateOportunidades | directus.ts:64-88 | the helper never throws, even on a non-ok status or an unreadable error body |
| Discovery.RequestOf | directus.ts:18-78 | every store call maps to an authorized request; only the model call and a raw-result update whose profile id does not convert to a string have none; a batch call becomes one POST to the collection with one stamped record per draft |
| Discovery.JoinSkills | index.tsx:101 | `job.skills.join(', ')` succeeds exactly when the skills value is an array whose elements all convert to strings, and then gives the elements joined with `", "`; an array with one that does not throws the conversion `TypeError`; a missing or `null` value throws the read error for `join`; any other value throws `job.skills.join is not a function` |
| Discovery.JobToDraft | index.tsx:97-104 | a job maps exactly when it has a skills array whose elements all convert to strings, and then field by field with the default schedule; a `null` job fails reading `title`; missing or `null` skills fail reading `join`; non-array skills fail as not a function; a skill that does not convert fails with the conversion `TypeError` |
| Discovery.MapJobs | index.tsx:97-104 | the batch maps exactly when every job maps, preserving length and order; otherwise the first failing job's error is what is thrown |
| Discovery.ExtractAndPersist | index.tsx:81-110 | at most one call is added, and only a batch creation with the given profile id; it completes normally exactly when that call is made |
| Discovery.TryBlock | index.tsx:40-111 | the profile creation always comes first; the block completes normally exactly when all four calls are made, the last being the batch; a batch call only ever carries the truthy created id |
| Discovery.Settle | index.tsx:112-118 | the loading flag is cleared; the error is the thrown value's message, or the fallback text for a non-`Error`; the shown lists are kept |
| Discovery.FindOpportunities | index.tsx:27-119 | blank input makes no call and only sets the validation message; otherwise profile creation comes first, loading ends, the error is empty exactly when the last call is the batch creation, and every batch carries the truthy created id |
| DiscoveryProperties.MapJobsFields | index.tsx:97-104 | when every job has a skills array whose elements all convert to strings, each draft is that job's fields mapped, in order |
| DiscoveryProperties.MapJobsMissingSkills | index.tsx:101 | the first job without `skills`, after jobs that all have them, makes the mapping throw the `join` read error |
| DiscoveryProperties.BlankMeansOnlyWhitespace | index.tsx:28-31 | the input is rejected as blank exactly when every character is whitespace |
| DiscoveryProperties.RunForgetsPriorDisplay | index.tsx:33-36 | for non-blank input the result does not depend on the display state before the click |
| DiscoveryProperties.ProfileFailureStopsRun | index.tsx:42-45 | the trace is the profile creation alone exactly when the id is falsy; the display then shows the profile message with empty lists |
| DiscoveryProperties.ModelFailureReported | index.tsx:112-115 | a rejected model call stops after two calls with the thrown value's message, or the fallback text for a non-`Error` |
| DiscoveryProperties.RawUpdateFollowsAnswer | index.tsx:73-78 | once the model answers, the third call is the raw-result update with the created id and the answer text, and the grounding chunks stay shown |
| DiscoveryProperties.ExtractSeesOnlyParse | index.tsx:81-106 | the extraction stage reads nothing of the outside world but `JSON.parse`: how the raw-result update and the batch creation settle does not reach it |
| DiscoveryProperties.StoreWriteOutcomesIgnored | directus.ts:42-88 | how the raw-result update and the batch creation settle never changes the run |
| DiscoveryProperties.MissingBraceReported | index.tsx:81-87 | an answer without `{` or `}` stops after three calls with the no-JSON message and no opportunities |
| DiscoveryProperties.CommentaryIgnored | index.tsx:82-90 | commentary around the JSON object changes neither the display nor any call after the raw-result update |
| DiscoveryProperties.NonArrayRejected | index.tsx:90-110 | a parsed value whose `opportunities` is not an array stops after three calls with the format message, or the `null` read error, and shows no opportunities |
| DiscoveryProperties.ParseFailureReported | index.tsx:89-115 | when `JSON.parse` rejects the slice, the run stops after three calls with no opportunities, and the error slot shows the parser's own message |
| DiscoveryProperties.OpportunitiesPublished | index.tsx:93-106 | an `opportunities` array is shown as it is; the run ends without an error exactly when every job has a skills array whose elements all convert to strings, and then the drafts go out in one batch call |
| DiscoveryProperties.BatchMapsEveryJob | index.tsx:97-106 | when every job has a skills array whose elements all convert to strings, the batch call carries the created id and one draft per job, in order, with that job's fields |
| DiscoveryProperties.MissingSkillsAfterPublish | index.tsx:94-101 | a job without `skills` leaves the list shown next to the `join` error, with no batch call |
| DiscoveryProperties.EmptyListStillPersisted | index.tsx:93-106 | an empty `opportunities` array still issues the batch call, with no drafts, and ends without an error |
| DiscoveryExamples.ObjectSkillRejected | index.tsx:101 | a job whose only skill is an object with its own `toString` key does not map, and the mapping throws the conversion `TypeError` |
| DiscoveryExamples.OneJobRun | index.tsx:27-119 | an answer with one job that maps yields exactly the four calls in order and shows that job with no error |
| DiscoveryExamples.AccountantSearch | index.tsx:27-119 | a concrete search with profile id 7 ends with the exact display and exact trace, its one draft lacking review and url |
| DiscoveryExamples.AccountantRequests | directus.ts:44-68 | that search's update goes to `{base}/items/perfiles/7`, and its record carries profile id 7 |
| DiscoveryExamples.PlainTextAnswer | index.tsx:81-87 | a plain-text answer ends with exactly three calls and the no-JSON message |

## Left out

- The network transport (`fetch`) is not modelled. Neither is the Google GenAI SDK call, including its API key, system instruction and prompt template (index.tsx:47-70). Each is replaced by the outcome it settles to in `Env`. The model call is recorded with the user text it embeds.
- `JSON.parse` is an uninterpreted oracle in `Env`, from string to a value or a `SyntaxError` message.
- How `JSON.stringify` serializes request bodies is not modelled. Bodies are kept as structured values, so fields that serialization would drop because they are `undefined` are still present.
- The `import.meta.env` settings are the `Config` parameter (store URL and token). The model's API key is left out with the SDK.
- `console.error` logging is left out, since it has no effect on state or calls.
- All JSX rendering, example.tsx and the ui components are left out as presentation. So is the disabled button that prevents overlapping searches: the model covers one invocation at a time.
- JSON numbers are integers. `String(n)` is plain decimal, which is what JavaScript gives below 10^21; fractions and exponent notation are not modelled.
- `response.text` is taken to be a string. The SDK may return `undefined` for an answer without text, and then `indexOf` throws; that path is not modelled.
- Property reads find only a value's own properties, never inherited ones. A key a value lacks but its prototype has would be read wrongly as `undefined`. None of the keys the code reads (`title`, `review`, `location`, `skills`, `url`, `opportunities`, `data`, `id`) is inherited by a parsed value, so this never changes a result here. The one inherited method the code calls, an array's `join`, is modelled on its own.
- `TypeError` messages use the V8 wording; other engines word them differently. V8 names the callee of "is not a function" after the call site, so the message `job.skills.join is not a function` assumes the unminified source; a minified bundle shows a different name.
- Strings are sequences of Unicode scalar values, not UTF-16 code units. Positions inside text with characters outside the Basic Multilingual Plane therefore differ from JavaScript's.
- The state updates issued while a search is still pending are not visible in the model, only the final display. These are the reset at index.tsx:33-36, the grounding chunks at index.tsx:76-78 and the list publication at index.tsx:94.
- Js.GetProp: only parsed JSON values and `undefined` can be read. Reads on functions, class instances and the SDK response object are not modelled.
- Discovery.FindOpportunities: the display the run ends with is stated for a blank input and for the profile id. The later stages are stated in the DiscoveryProperties lemmas, not in this function's contract.

=== FILE: directus.dfy ===
/**
 The record-store client: three helpers that each issue one HTTP request to the
 Directus content store. Each is split into the request it builds and what it
 makes of the response; the transport is replaced by a `FetchOutcome`.
 */
module Directus {
  import opened Wrappers
  import opened Js

  /** The store's base URL and access token, read once from the environment. */
  datatype Config = Config(directusUrl: string, directusToken: string)

  datatype Method = Post | Patch

  datatype Header = Header(name: string, value: string)

  datatype Request = Request(verb: Method, url: string, headers: seq<Header>, body: Body)

  /** The payload the pipeline attaches to a profile after the search. */
  datatype RawResults = RawResults(rawResponse: string)

  /** An opportunity before it is linked to a profile (`Omit<Oportunidad, 'perfil'>`). */
  datatype Draft = Draft(
    titulo: JsValue,
    descripcion: JsValue,
    ubicacion: JsValue,
    perfilRequerido: string,
    url: JsValue,
    horario: string)

  /** An opportunity record as sent to the store, linked to its profile through `perfil`. */
  datatype Oportunidad = Oportunidad(
    titulo: JsValue,
    descripcion: JsValue,
    ubicacion: JsValue,
    perfilRequerido: string,
    url: JsValue,
    horario: string,
    perfil: JsValue)
  {
    /** The record without its profile link. */
    function WithoutProfile(): Draft {
      Draft(titulo, descripcion, ubicacion, perfilRequerido, url, horario)
    }
  }

  /** The object passed to `JSON.stringify` as the request body. */
  datatype Body =
    | PerfilFields(descripcion: string)
    | RawResultFields(resultadosRaw: RawResults)
    | OportunidadList(records: seq<Oportunidad>)

  /**
   What `fetch` settles to: a rejection, or a response with its `ok` flag, its
   status and what `response.json()` settles to.
   */
  datatype FetchOutcome =
    | NetworkFailure(reason: Thrown)
    | Response(ok: bool, status: int, json: Completion<Json>)

  const Perfiles := "perfiles"
  const Oportunidades := "oportunidades"

  /** The headers of every store request. */
  function Headers(cfg: Config): seq<Header> {
    [Header("Content-Type", "application/json"), Header("Authorization", "Bearer " + cfg.directusToken)]
  }

  /** The request carries the store's bearer token and a JSON content type. */
  predicate Authorized(cfg: Config, req: Request) {
    && Header("Authorization", "Bearer " + cfg.directusToken) in req.headers
    && Header("Content-Type", "application/json") in req.headers
  }

  /** `${directusUrl}/items/${collection}` */
  function CollectionUrl(cfg: Config, collection: string): string {
    cfg.directusUrl + "/items/" + collection
  }

  /** The error a helper throws inside its own `try` on a non-ok status. */
  function HttpError(status: int): Thrown {
    ErrorInstance("HTTP error! status: " + NumberToString(status))
  }

  // createProfile

  /** The single request `createProfile(description)` issues. */
  function CreateProfileRequest(cfg: Config, description: string): (req: Request)
    ensures req.verb == Post
    ensures req.url == CollectionUrl(cfg, Perfiles)
    ensures Authorized(cfg, req)
    ensures req.body == PerfilFields(description)
  {
    Request(Post, CollectionUrl(cfg, Perfiles), Headers(cfg), PerfilFields(description))
  }

  /** The `try` block of `createProfile`: check the status, read the body, return `result.data.id`. */
  function CreateProfileTry(fetch: FetchOutcome): Completion<JsValue> {
    match fetch
    case NetworkFailure(t) => Throw(t)
    case Response(ok, status, json) =>
      if !ok then Throw(HttpError(status))
      else
        match json
        case Throw(t) => Throw(t)
        case Normal(result) =>
          match GetProp(Val(result), "data")
          case Throw(t) => Throw(t)
          case Normal(data) => GetProp(data, "id")
  }

  /**
   `createProfile`: the created record's `data.id`, or `null` whenever anything
   in the exchange fails, reading `data.id` included. It never throws.
   */
  function CreateProfile(fetch: FetchOutcome): (id: JsValue)
    ensures fetch.NetworkFailure? || (fetch.Response? && !fetch.ok) ==> id == Null
    ensures fetch.Response? && fetch.json.Throw? ==> id == Null
    ensures fetch.Response? && fetch.ok && fetch.json.Normal? ==>
      var result := fetch.json.value;
      var data := OwnProperty(result, "data");
      && (result == JNull || Nullish(data) ==> id == Null)
      && (result != JNull && !Nullish(data) ==> id == OwnProperty(data.json, "id"))
    ensures !Falsy(id) ==> fetch.Response? && fetch.ok && fetch.json.Normal?
  {
    match CreateProfileTry(fetch)
    case Normal(v) => v
    case Throw(_) => Null
  }

  // updateProfileWithRawResults

  /**
   The single request `updateProfileWithRawResults(profileId, rawResults)`
   issues, or the `TypeError` of inserting a profile id that does not convert
   to a string into its URL, in which case nothing is sent.
   */
  function UpdateRawResultsRequest(cfg: Config, profileId: JsValue, rawResults: RawResults): (req: Completion<Request>)
    ensures req.Normal? <==> profileId == Undefined || Convertible(profileId.json)
    ensures req.Throw? ==> req.thrown == ErrorInstance(NoPrimitiveMessage)
    ensures req.Normal? ==>
      && req.value.verb == Patch
      && req.value.url == CollectionUrl(cfg, Perfiles) + "/" + TemplateString(profileId).value
      && Authorized(cfg, req.value)
      && req.value.body == RawResultFields(rawResults)
  {
    match TemplateString(profileId)
    case Throw(t) => Throw(t)
    case Normal(id) => Normal(Request(Patch, CollectionUrl(cfg, Perfiles) + "/" + id, Headers(cfg), RawResultFields(rawResults)))
  }

  /**
   The `try` block of `updateProfileWithRawResults`: it throws when the URL
   cannot be built, on a failed fetch, or on a non-ok status.
   */
  function UpdateRawResultsTry(profileId: JsValue, fetch: FetchOutcome): (c: Completion<()>)
    ensures c.Normal? <==> (profileId == Undefined || Convertible(profileId.json)) && fetch.Response? && fetch.ok
  {
    match TemplateString(profileId)
    case Throw(t) => Throw(t)
    case Normal(_) =>
      match fetch
      case NetworkFailure(t) => Throw(t)
      case Response(ok, status, _) => if ok then Normal(()) else Throw(HttpError(status))
  }

  /** `updateProfileWithRawResults`: every failure of its `try` block is caught, so it completes normally. */
  function UpdateProfileWithRawResults(profileId: JsValue, fetch: FetchOutcome): (c: Completion<()>)
    ensures c == Normal(())
  {
    match UpdateRawResultsTry(profileId, fetch)
    case Normal(_) => Normal(())
    case Throw(_) => Normal(())
  }

  // createOportunidades

  /** `oportunidades.map(op => ({...op, perfil: profileId}))` */
  function WithProfile(drafts: seq<Draft>, profileId: JsValue): (records: seq<Oportunidad>)
    ensures |records| == |drafts|
    ensures forall k :: 0 <= k < |records| ==> records[k].perfil == profileId && records[k].WithoutProfile() == drafts[k]
  {
    seq(|drafts|, k requires 0 <= k < |drafts| =>
      var d := drafts[k];
      Oportunidad(d.titulo, d.descripcion, d.ubicacion, d.perfilRequerido, d.url, d.horario, profileId))
  }

  /** The single request `createOportunidades(profileId, oportunidades)` issues, for a batch of any length. */
  function CreateOportunidadesRequest(cfg: Config, profileId: JsValue, drafts: seq<Draft>): (req: Request)
    ensures req.verb == Post
    ensures req.url == CollectionUrl(cfg, Oportunidades)
    ensures Authorized(cfg, req)
    ensures req.body.OportunidadList? && |req.body.records| == |drafts|
    ensures forall k :: 0 <= k < |drafts| ==>
      req.body.records[k].perfil == profileId && req.body.records[k].WithoutProfile() == drafts[k]
  {
    Request(Post, CollectionUrl(cfg, Oportunidades), Headers(cfg), OportunidadList(WithProfile(drafts, profileId)))
  }

  /**
   The `try` block of `createOportunidades`: on a non-ok status it reads the
   error body first, so it throws either the failure of that read or the HTTP error.
   */
  function CreateOportunidadesTry(fetch: FetchOutcome): (c: Completion<()>)
    ensures c.Normal? <==> fetch.Response? && fetch.ok
    ensures fetch.Response? && !fetch.ok && fetch.json.Normal? ==> c == Throw(HttpError(fetch.status))
  {
    match fetch
    case NetworkFailure(t) => Throw(t)
    case Response(ok, status, json) =>
      if ok then Normal(())
      else
        match json
        case Throw(t) => Throw(t)
        case Normal(_) => Throw(HttpError(status))
  }

  /** `createOportunidades`: every failure of its `try` block is caught, so it completes normally. */
  function CreateOportunidades(fetch: FetchOutcome): (c: Completion<()>)
    ensures c == Normal(())
  {
    match CreateOportunidadesTry(fetch)
    case Normal(_) => Normal(())
    case Throw(_) => Normal(())
  }
}

=== FILE: discovery.dfy ===
/**
 The opportunity-discovery pipeline (`findOpportunities`) as a pure function.
 Given the user's text, the display state before the click, and the outcomes
 of the external calls, it yields the display state after the run and the
 ordered list of external calls the run issued.
 */
module Discovery {
  import opened Wrappers
  import opened Js
  import opened Extraction
  import opened Directus

  const ValidationMessage := "Por favor, describe tus habilidades y ubicación."
  const ProfileFailedMessage := "No se pudo crear el perfil en Directus."
  const NoJsonMessage := "No se encontró un objeto JSON válido en la respuesta del modelo."
  const BadFormatMessage := "El formato de las oportunidades laborales en la respuesta es incorrecto."
  const FallbackMessage := "Hubo un error al buscar oportunidades. Por favor, inténtalo de nuevo más tarde."
  const DefaultHorario := "No especificado"
  const SkillsSeparator := ", "
  const ModelName := "gemini-2.5-flash"

  /** A web citation of the search model's grounding metadata. */
  datatype WebSource = WebSource(uri: Option<string>, title: Option<string>)
  datatype GroundingChunk = GroundingChunk(web: Option<WebSource>)

  /** The four pieces of display state the pipeline writes. */
  datatype UiState = UiState(
    error: Option<string>,
    opportunities: seq<Json>,
    groundingChunks: seq<GroundingChunk>,
    isLoading: bool)

  /**
   What the search model call settles to: the response text with the grounding
   chunks of its first candidate (absent when any link of that optional chain is
   missing), or a thrown value.
   */
  datatype ModelOutcome =
    | Answered(text: string, groundingChunks: Option<seq<GroundingChunk>>)
    | Rejected(thrown: Thrown)

  /** What `JSON.parse` does with a string. */
  datatype ParseOutcome = Parsed(value: Json) | SyntaxError(message: string)

  /**
   The outside world of one run: how each of the three store fetches settles,
   how the model call settles, and `JSON.parse`, left uninterpreted.
   */
  datatype Env = Env(
    profileFetch: FetchOutcome,
    model: ModelOutcome,
    rawFetch: FetchOutcome,
    batchFetch: FetchOutcome,
    parse: string -> ParseOutcome)

  /** One external call, with its arguments. */
  datatype Call =
    | CreateProfileCall(description: string)
    | GenerateContentCall(modelName: string, profileText: string)
    | UpdateRawResultsCall(profileId: JsValue, rawResults: RawResults)
    | CreateOportunidadesCall(profileId: JsValue, drafts: seq<Draft>)

  datatype Run = Run(state: UiState, trace: seq<Call>)

  /** Where the `try` block stopped: the state and calls so far, and what it threw, if anything. */
  datatype TryOutcome = TryOutcome(state: UiState, trace: seq<Call>, thrown: Option<Thrown>)

  /** `!userInput.trim()` */
  predicate IsBlank(input: string) {
    Trim(input) == ""
  }

  /** The message the `catch` block puts in the error slot. */
  function ErrorMessage(t: Thrown): string {
    match t
    case ErrorInstance(m) => m
    case NonError => FallbackMessage
  }

  /**
   The HTTP request a store call sends: none for the model call, which is not a
   store call, and none for a raw-result update whose URL could not be built.
   */
  function RequestOf(cfg: Config, call: Call): (req: Option<Request>)
    ensures req.None? <==>
      (call.GenerateContentCall? || (call.UpdateRawResultsCall? && call.profileId.Val? && !Convertible(call.profileId.json)))
    ensures req.Some? ==> Authorized(cfg, req.value)
    ensures call.CreateOportunidadesCall? ==>
      req.value.verb == Post && req.value.url == CollectionUrl(cfg, Oportunidades)
      && req.value.body.OportunidadList? && |req.value.body.records| == |call.drafts|
      && forall k :: 0 <= k < |call.drafts| ==>
        req.value.body.records[k].perfil == call.profileId && req.value.body.records[k].WithoutProfile() == call.drafts[k]
  {
    match call
    case CreateProfileCall(d) => Some(CreateProfileRequest(cfg, d))
    case GenerateContentCall(_, _) => None
    case UpdateRawResultsCall(id, raw) =>
      var req := UpdateRawResultsRequest(cfg, id, raw);
      if req.Normal? then Some(req.value) else None
    case CreateOportunidadesCall(id, drafts) => Some(CreateOportunidadesRequest(cfg, id, drafts))
  }

  // Mapping a job to a draft

  /** The job has a `skills` array that `join` can render: the one thing the mapping cannot do without. */
  predicate HasSkillList(job: Json) {
    job.JObject? && "skills" in job.fields && job.fields["skills"].JArray? && Convertible(job.fields["skills"])
  }

  /**
   `draft` carries the job's title, review, location and url as they are, its
   skills joined with ", ", and the default schedule.
   */
  predicate Mapped(job: Json, draft: Draft) {
    && HasSkillList(job)
    && draft.titulo == OwnProperty(job, "title")
    && draft.descripcion == OwnProperty(job, "review")
    && draft.ubicacion == OwnProperty(job, "location")
    && draft.perfilRequerido == ArrayJoin(job.fields["skills"].items, ", ").value
    && draft.url == OwnProperty(job, "url")
    && draft.horario == DefaultHorario
  }

  /** `job.skills.join(', ')` */
  function JoinSkills(skills: JsValue): (r: Completion<string>)
    ensures r.Normal? <==> skills.Val? && skills.json.JArray? && Convertible(skills.json)
    ensures r.Throw? && skills.Val? && skills.json.JArray? ==> r.thrown == ErrorInstance(NoPrimitiveMessage)
    ensures skills.Val? && skills.json.JArray? ==> r == ArrayJoin(skills.json.items, SkillsSeparator)
    ensures Nullish(skills) ==> r == Throw(ErrorInstance(NullishReadMessage(skills, "join")))
    ensures skills.Val? && skills.json != JNull && !skills.json.JArray? ==>
      r == Throw(ErrorInstance(NotAFunctionMessage("job.skills.join")))
  {
    match skills
    case Undefined => Throw(ErrorInstance(NullishReadMessage(skills, "join")))
    case Val(j) =>
      match j
      case JNull => Throw(ErrorInstance(NullishReadMessage(skills, "join")))
      case JArray(xs) => ArrayJoin(xs, SkillsSeparator)
      case _ => Throw(ErrorInstance(NotAFunctionMessage("job.skills.join")))
  }

  /**
   The object literal built for each job. Its properties are evaluated in
   order, so a `null` job throws at `job.title` and any other job throws only
   at `job.skills.join`: reading `join` from a missing or `null` skills value,
   calling a `join` a non-array lacks, or converting an element `join` cannot
   render as a string.
   */
  function JobToDraft(job: Json): (r: Completion<Draft>)
    ensures r.Normal? <==> HasSkillList(job)
    ensures r.Normal? ==> Mapped(job, r.value)
    ensures job == JNull ==> r == Throw(ErrorInstance(NullishReadMessage(Null, "title")))
    ensures job != JNull && OwnProperty(job, "skills") == Undefined ==>
      r == Throw(ErrorInstance(NullishReadMessage(Undefined, "join")))
    ensures job.JObject? && "skills" in job.fields && job.fields["skills"] == JNull ==>
      r == Throw(ErrorInstance(NullishReadMessage(Null, "join")))
    ensures job.JObject? && "skills" in job.fields && job.fields["skills"] != JNull && !job.fields["skills"].JArray? ==>
      r == Throw(ErrorInstance(NotAFunctionMessage("job.skills.join")))
    ensures job.JObject? && "skills" in job.fields && job.fields["skills"].JArray? && !Convertible(job.fields["skills"]) ==>
      r == Throw(ErrorInstance(NoPrimitiveMessage))
  {
    match GetProp(Val(job), "title")
    case Throw(t) => Throw(t)
    case Normal(title) =>
      var review := GetProp(Val(job), "review").value;
      var location := GetProp(Val(job), "location").value;
      var skills := GetProp(Val(job), "skills").value;
      match JoinSkills(skills)
      case Throw(t) =>
        Throw(t)
      case Normal(required) =>
        var url := GetProp(Val(job), "url").value;
        Normal(Draft(title, review, location, required, url, DefaultHorario))
  }

  /**
   `jobs.map(JobToDraft)`: the drafts in job order when every job maps, and
   otherwise what the first failing job throws.
   */
  function MapJobs(jobs: seq<Json>): (r: Completion<seq<Draft>>)
    ensures r.Normal? <==> forall k :: 0 <= k < |jobs| ==> JobToDraft(jobs[k]).Normal?
    ensures r.Normal? ==> |r.value| == |jobs|
    ensures r.Normal? ==> forall k :: 0 <= k < |jobs| ==> JobToDraft(jobs[k]) == Normal(r.value[k])
    ensures forall k :: 0 <= k < |jobs| ==>
      (JobToDraft(jobs[k]).Throw? && (forall m :: 0 <= m < k ==> JobToDraft(jobs[m]).Normal?)) ==>
      r == Throw(JobToDraft(jobs[k]).thrown)
  {
    if |jobs| == 0 then Normal([])
    else
      match JobToDraft(jobs[0])
      case Throw(t) => Throw(t)
      case Normal(d) =>
        match MapJobs(jobs[1..])
        case Throw(t) =>
          assert forall k :: 1 <= k < |jobs| ==> jobs[1..][k - 1] == jobs[k];
          Throw(t)
        case Normal(ds) =>
          assert forall k :: 1 <= k < |jobs| ==> jobs[1..][k - 1] == jobs[k];
          Normal([d] + ds)
  }

  // The pipeline

  /** The display state right after the four resets at the start of a run. */
  function Begin(): UiState {
    UiState(None, [], [], true)
  }

  /** The end of the `try` block, from slicing the answer to the batch creation (index.tsx:81-106). */
  function ExtractAndPersist(profileId: JsValue, text: string, env: Env, s: UiState, t: seq<Call>): (a: TryOutcome)
    ensures |t| <= |a.trace| <= |t| + 1 && a.trace[..|t|] == t
    ensures a.thrown.None? <==> |a.trace| == |t| + 1
    ensures |a.trace| == |t| + 1 ==> a.trace[|t|].CreateOportunidadesCall? && a.trace[|t|].profileId == profileId
    ensures a.state.error == s.error && a.state.groundingChunks == s.groundingChunks && a.state.isLoading == s.isLoading
  {
    match JsonSlice(text)
    case None => TryOutcome(s, t, Some(ErrorInstance(NoJsonMessage)))
    case Some(slice) =>
      match env.parse(slice)
      case SyntaxError(m) => TryOutcome(s, t, Some(ErrorInstance(m)))
      case Parsed(parsed) =>
        match GetProp(Val(parsed), "opportunities")
        case Throw(e) => TryOutcome(s, t, Some(e))
        case Normal(v) =>
          if v.Val? && v.json.JArray? then
            var published := s.(opportunities := v.json.items);
            match MapJobs(v.json.items)
            case Throw(e) => TryOutcome(published, t, Some(e))
            case Normal(drafts) =>
              var t' := t + [CreateOportunidadesCall(profileId, drafts)];
              match CreateOportunidades(env.batchFetch)
              case Throw(e) => TryOutcome(published, t', Some(e))
              case Normal(_) => TryOutcome(published, t', None)
          else TryOutcome(s, t, Some(ErrorInstance(BadFormatMessage)))
  }

  /** The `try` block of `findOpportunities`, entered with the display state of `Begin()`. */
  function TryBlock(input: string, env: Env): (a: TryOutcome)
    ensures 1 <= |a.trace| <= 4 && a.trace[0] == CreateProfileCall(input)
    ensures a.thrown.None? <==> |a.trace| == 4
    ensures |a.trace| == 4 ==> a.trace[3].CreateOportunidadesCall?
    ensures a.state.error == None && a.state.isLoading
    ensures forall k :: 0 <= k < |a.trace| && a.trace[k].CreateOportunidadesCall? ==>
      k == 3 && a.trace[k].profileId == CreateProfile(env.profileFetch) && !Falsy(a.trace[k].profileId)
  {
    var s0 := Begin();
    var t1 := [CreateProfileCall(input)];
    var profileId := CreateProfile(env.profileFetch);
    if Falsy(profileId) then TryOutcome(s0, t1, Some(ErrorInstance(ProfileFailedMessage)))
    else
      var t2 := [CreateProfileCall(input), GenerateContentCall(ModelName, input)];
      match env.model
      case Rejected(e) => TryOutcome(s0, t2, Some(e))
      case Answered(text, chunks) =>
        var t3 := [CreateProfileCall(input), GenerateContentCall(ModelName, input), UpdateRawResultsCall(profileId, RawResults(text))];
        match UpdateProfileWithRawResults(profileId, env.rawFetch)
        case Throw(e) => TryOutcome(s0, t3, Some(e))
        case Normal(_) =>
          // `chunks || []`: an absent chunk list, like the empty one, shows nothing.
          var s3 := s0.(groundingChunks := chunks.GetOr([]));
          ExtractAndPersist(profileId, text, env, s3, t3)
  }

  /** The `catch` block's message, if the `try` block threw, and the `finally` block's cleared flag. */
  function Settle(a: TryOutcome): (s: UiState)
    ensures s.isLoading == false
    ensures s.opportunities == a.state.opportunities && s.groundingChunks == a.state.groundingChunks
    ensures s.error == if a.thrown.Some? then Some(ErrorMessage(a.thrown.value)) else a.state.error
  {
    var caught := match a.thrown
      case Some(e) => a.state.(error := Some(ErrorMessage(e)))
      case None => a.state;
    caught.(isLoading := false)
  }

  /**
   `findOpportunities`: a blank input only sets the validation message; any
   other input runs the `try` block, lets the `catch` block put the message of
   what it threw in the error slot, and clears the loading flag in `finally`.
   */
  function FindOpportunities(input: string, before: UiState, env: Env): (r: Run)
    ensures IsBlank(input) <==> r.trace == []
    ensures IsBlank(input) ==> r.state == before.(error := Some(ValidationMessage))
    ensures !IsBlank(input) ==> r.trace[0] == CreateProfileCall(input) && !r.state.isLoading
    ensures !IsBlank(input) ==> (r.state.error.None? <==> r.trace[|r.trace| - 1].CreateOportunidadesCall?)
    ensures forall k :: 0 <= k < |r.trace| && r.trace[k].CreateOportunidadesCall? ==>
      r.trace[k].profileId == CreateProfile(env.profileFetch) && !Falsy(r.trace[k].profileId)
  {
    if IsBlank(input) then Run(before.(error := Some(ValidationMessage)), [])
    else
      var a := TryBlock(input, env);
      Run(Settle(a), a.trace)
  }
}

=== FILE: discovery_examples.dfy ===
/**
 Two complete runs of the pipeline with every outside outcome fixed: a search
 whose answer is one well-formed opportunity, and one whose answer holds no
 JSON object at all.
 */
module DiscoveryExamples {
  import opened Wrappers
  import opened Js
  import opened Extraction
  import opened Directus
  import opened Discovery
  import opened DiscoveryProperties

  const AccountantInput := "Contador en CDMX"

  /** The model's answer: one job with a title, a location and a skills list, and no review or url. */
  const AccountantAnswer := "{" + AccountantFields + "}"

  const AccountantFields :=
    "\"opportunities\":[{\"title\":\"Contador\","
    + "\"location\":\"CDMX\",\"skills\":[\"Excel\"]}]"

  function AccountantJob(): Json {
    JObject(map[
      "title" := JString("Contador"),
      "location" := JString("CDMX"),
      "skills" := JArray([JString("Excel")])])
  }

  /** A store that accepts every write (the created profile gets id 7) and a model that answers with pure JSON. */
  function AccountantEnv(): Env {
    var accepted := Response(true, 200, Normal(JNull));
    Env(
      Response(true, 200, Normal(JObject(map["data" := JObject(map["id" := JNumber(7)])]))),
      Answered(AccountantAnswer, None),
      accepted,
      accepted,
      s => if s == AccountantAnswer then Parsed(JObject(map["opportunities" := JArray([AccountantJob()])]))
           else SyntaxError("Unexpected token"))
  }

  lemma AccountantInputNotBlank()
    ensures !IsBlank(AccountantInput)
  {
    assert AccountantInput[0] == 'C';
    assert !IsWhitespace('C');
    assert TrimStart(AccountantInput) == AccountantInput;
  }

  /** The store gives the created profile the id 7. */
  lemma AccountantProfileId()
    ensures ProfileId(AccountantEnv()) == Val(JNumber(7))
  {
  }

  /** The whole answer is the slice, and it parses to the one-job list. */
  lemma AccountantParsed()
    ensures ParsedAnswer(AccountantEnv()) == Some(JObject(map["opportunities" := JArray([AccountantJob()])]))
  {
    assert AccountantAnswer[0] == '{' && AccountantAnswer[|AccountantAnswer| - 1] == '}';
    SliceIgnoresNoise("", AccountantAnswer, "");
    assert "" + AccountantAnswer + "" == AccountantAnswer;
  }

  /** The job's draft: the missing review and url stay `undefined`, and the schedule takes its default. */
  function AccountantDraft(): Draft {
    Draft(Val(JString("Contador")), Undefined, Val(JString("CDMX")), "Excel", Undefined, "No especificado")
  }

  lemma AccountantDraftMaps()
    ensures JobToDraft(AccountantJob()) == Normal(AccountantDraft())
  {
    assert HasSkillList(AccountantJob());
    assert ArrayJoin([JString("Excel")], ", ") == Normal("Excel");
  }

  /**
   A job whose only skill is an object with its own `toString` key: `join`
   cannot convert that skill to a string, so the job does not map and the
   `TypeError` of the conversion is what the mapping throws.
   */
  lemma ObjectSkillRejected()
    ensures var job := JObject(map["title" := JString("a"), "skills" := JArray([JObject(map["toString" := JNumber(1)])])]);
      && !HasSkillList(job)
      && JobToDraft(job) == Throw(ErrorInstance(NoPrimitiveMessage))
      && MapJobs([job]) == Throw(ErrorInstance(NoPrimitiveMessage))
  {
    var job := JObject(map["title" := JString("a"), "skills" := JArray([JObject(map["toString" := JNumber(1)])])]);
    assert !Convertible(job.fields["skills"].items[0]);
    assert [job][0] == job;
  }

  /** The `try` block of a search whose answer holds exactly one job that maps. */
  lemma OneJobTry(input: string, env: Env, parsed: Json, job: Json, draft: Draft)
    requires !Falsy(ProfileId(env)) && env.model.Answered?
    requires ParsedAnswer(env) == Some(parsed) && OwnProperty(parsed, "opportunities") == Val(JArray([job]))
    requires JobToDraft(job) == Normal(draft)
    ensures TryBlock(input, env) == TryOutcome(
      AnsweredState(env).(opportunities := [job]),
      [ CreateProfileCall(input),
        GenerateContentCall(ModelName, input),
        UpdateRawResultsCall(ProfileId(env), RawResults(env.model.text)),
        CreateOportunidadesCall(ProfileId(env), [draft])],
      None)
  {
    AnsweredTry(input, env);
    ExtractArray(ProfileId(env), env.model.text, env, AnsweredState(env), AnsweredPrefix(input, env), parsed, [job]);
    var mapped := MapJobs([job]);
    assert [job][0] == job;
    assert mapped.Normal? && |mapped.value| == 1 && mapped.value[0] == draft;
    assert mapped.value == [draft];
    assert AnsweredPrefix(input, env) + [CreateOportunidadesCall(ProfileId(env), [draft])] == [
      CreateProfileCall(input),
      GenerateContentCall(ModelName, input),
      UpdateRawResultsCall(ProfileId(env), RawResults(env.model.text)),
      CreateOportunidadesCall(ProfileId(env), [draft])];
  }

  /**
   A search whose answer holds exactly one job that maps: the job is shown
   with no error, and the four calls are made in order, the last one
   persisting that job's draft under the created profile.
   */
  lemma OneJobRun(input: string, before: UiState, env: Env, parsed: Json, job: Json, draft: Draft)
    requires !IsBlank(input) && !Falsy(ProfileId(env)) && env.model.Answered? && env.model.groundingChunks == None
    requires ParsedAnswer(env) == Some(parsed) && OwnProperty(parsed, "opportunities") == Val(JArray([job]))
    requires JobToDraft(job) == Normal(draft)
    ensures FindOpportunities(input, before, env) == Run(
      UiState(None, [job], [], false),
      [ CreateProfileCall(input),
        GenerateContentCall(ModelName, input),
        UpdateRawResultsCall(ProfileId(env), RawResults(env.model.text)),
        CreateOportunidadesCall(ProfileId(env), [draft])])
  {
    RunIsSettledTry(input, before, env);
    OneJobTry(input, env, parsed, job, draft);
  }

  /**
   One opportunity is shown, with no error, and one record is persisted: it
   carries the job's fields, the default schedule and the created profile's id.
   */
  lemma AccountantSearch(before: UiState)
    ensures FindOpportunities(AccountantInput, before, AccountantEnv()) == Run(
      UiState(None, [AccountantJob()], [], false),
      [ CreateProfileCall(AccountantInput),
        GenerateContentCall(ModelName, AccountantInput),
        UpdateRawResultsCall(Val(JNumber(7)), RawResults(AccountantAnswer)),
        CreateOportunidadesCall(Val(JNumber(7)), [AccountantDraft()])])
  {
    AccountantInputNotBlank();
    AccountantProfileId();
    AccountantParsed();
    AccountantDraftMaps();
    OneJobRun(AccountantInput, before, AccountantEnv(),
      JObject(map["opportunities" := JArray([AccountantJob()])]), AccountantJob(), AccountantDraft());
  }

  /**
   The requests the two store writes of the accountant search turn into: the
   update goes to the profile's own URL, and the record carries the profile id.
   */
  lemma AccountantRequests(cfg: Config)
    ensures RequestOf(cfg, UpdateRawResultsCall(Val(JNumber(7)), RawResults(AccountantAnswer))).value.url
         == cfg.directusUrl + "/items/perfiles/7"
    ensures RequestOf(cfg, CreateOportunidadesCall(Val(JNumber(7)), [AccountantDraft()])).value.body.records[0].perfil
         == Val(JNumber(7))
  {
    assert TemplateString(Val(JNumber(7))) == Normal("7");
    assert "/items/" + "perfiles" + "/" + "7" == "/items/perfiles/7";
  }

  const ApologyAnswer := "Sin resultados."

  /**
   An answer in plain text ends in the no-JSON message after three calls:
   nothing is persisted and the list stays empty.
   */
  lemma PlainTextAnswer(before: UiState)
    ensures FindOpportunities(AccountantInput, before, AccountantEnv().(model := Answered(ApologyAnswer, None))) == Run(
      UiState(Some(NoJsonMessage), [], [], false),
      [ CreateProfileCall(AccountantInput),
        GenerateContentCall(ModelName, AccountantInput),
        UpdateRawResultsCall(Val(JNumber(7)), RawResults(ApologyAnswer))])
  {
    var env := AccountantEnv().(model := Answered(ApologyAnswer, None));
    AccountantInputNotBlank();
    assert ProfileId(env) == Val(JNumber(7));
    assert '{' !in ApologyAnswer;
    MissingBraceReported(AccountantInput, before, env);
    RawUpdateFollowsAnswer(AccountantInput, before, env);
    var r := FindOpportunities(AccountantInput, before, env);
    assert r.trace == r.trace[..3];
  }
}

=== FILE: discovery_properties.dfy ===
/**
 Properties of the discovery pipeline that relate a run to its environment:
 what each failure leaves behind, the order of the external calls, which
 outcomes cannot change the result, and two complete runs.
 */
module DiscoveryProperties {
  import opened Wrappers
  import opened Js
  import opened Extraction
  import opened Directus
  import opened Discovery

  /** The id `createProfile` yields in this environment. */
  function ProfileId(env: Env): JsValue {
    CreateProfile(env.profileFetch)
  }

  /** The value `JSON.parse` returns for the model's answer, when the run gets that far. */
  function ParsedAnswer(env: Env): Option<Json> {
    if env.model.Answered? && JsonSlice(env.model.text).Some? && env.parse(JsonSlice(env.model.text).value).Parsed? then
      Some(env.parse(JsonSlice(env.model.text).value).value)
    else None
  }

  /** The calls made once the model has answered: profile, model, raw-result update. */
  function AnsweredPrefix(input: string, env: Env): seq<Call>
    requires env.model.Answered?
  {
    [CreateProfileCall(input), GenerateContentCall(ModelName, input), UpdateRawResultsCall(ProfileId(env), RawResults(env.model.text))]
  }

  /** The display state once the model has answered: the reset state with the grounding chunks. */
  function AnsweredState(env: Env): UiState
    requires env.model.Answered?
  {
    Begin().(groundingChunks := env.model.groundingChunks.GetOr([]))
  }

  // Unfolding lemmas: each step of the pipeline, one at a time.

  lemma RunIsSettledTry(input: string, before: UiState, env: Env)
    requires !IsBlank(input)
    ensures FindOpportunities(input, before, env) == Run(Settle(TryBlock(input, env)), TryBlock(input, env).trace)
  {
  }

  lemma AnsweredTry(input: string, env: Env)
    requires !Falsy(ProfileId(env)) && env.model.Answered?
    ensures TryBlock(input, env)
         == ExtractAndPersist(ProfileId(env), env.model.text, env, AnsweredState(env), AnsweredPrefix(input, env))
  {
  }

  lemma ProfileFailedTry(input: string, env: Env)
    requires Falsy(ProfileId(env))
    ensures TryBlock(input, env) == TryOutcome(Begin(), [CreateProfileCall(input)], Some(ErrorInstance(ProfileFailedMessage)))
  {
  }

  lemma RejectedTry(input: string, env: Env)
    requires !Falsy(ProfileId(env)) && env.model.Rejected?
    ensures TryBlock(input, env)
         == TryOutcome(Begin(), [CreateProfileCall(input), GenerateContentCall(ModelName, input)], Some(env.model.thrown))
  {
  }

  lemma ExtractWithoutSlice(id: JsValue, text: string, env: Env, s: UiState, t: seq<Call>)
    requires JsonSlice(text).None?
    ensures ExtractAndPersist(id, text, env, s, t) == TryOutcome(s, t, Some(ErrorInstance(NoJsonMessage)))
  {
  }

  lemma ExtractNonArray(id: JsValue, text: string, env: Env, s: UiState, t: seq<Call>, parsed: Json)
    requires JsonSlice(text).Some? && env.parse(JsonSlice(text).value) == Parsed(parsed)
    requires !(OwnProperty(parsed, "opportunities").Val? && OwnProperty(parsed, "opportunities").json.JArray?)
    ensures ExtractAndPersist(id, text, env, s, t)
         == TryOutcome(s, t, Some(ErrorInstance(
              if parsed == JNull then NullishReadMessage(Null, "opportunities") else BadFormatMessage)))
  {
  }

  lemma ExtractArray(id: JsValue, text: string, env: Env, s: UiState, t: seq<Call>, parsed: Json, jobs: seq<Json>)
    requires JsonSlice(text).Some? && env.parse(JsonSlice(text).value) == Parsed(parsed)
    requires OwnProperty(parsed, "opportunities") == Val(JArray(jobs))
    ensures ExtractAndPersist(id, text, env, s, t)
         == if MapJobs(jobs).Throw? then TryOutcome(s.(opportunities := jobs), t, Some(MapJobs(jobs).thrown))
            else TryOutcome(s.(opportunities := jobs), t + [CreateOportunidadesCall(id, MapJobs(jobs).value)], None)
  {
  }

  /** The extraction stage sees the answer only through its slice. */
  lemma ExtractSeesOnlySlice(
    id: JsValue, text: string, text': string, env: Env, m: ModelOutcome, m': ModelOutcome,
    s: UiState, t: seq<Call>, t': seq<Call>)
    requires JsonSlice(text) == JsonSlice(text')
    ensures var a := ExtractAndPersist(id, text, env.(model := m), s, t);
      var a' := ExtractAndPersist(id, text', env.(model := m'), s, t');
      && a.state == a'.state && a.thrown == a'.thrown
      && |a.trace| - |t| == |a'.trace| - |t'|
      && a.trace[|t|..] == a'.trace[|t'|..]
  {
    var e, e' := env.(model := m), env.(model := m');
    if JsonSlice(text).None? {
      ExtractWithoutSlice(id, text, e, s, t);
      ExtractWithoutSlice(id, text', e', s, t');
    } else {
      var slice := JsonSlice(text).value;
      assert e.parse(slice) == e'.parse(slice);
      match e.parse(slice)
      case SyntaxError(_) =>
      case Parsed(parsed) =>
        if OwnProperty(parsed, "opportunities").Val? && OwnProperty(parsed, "opportunities").json.JArray? {
          var jobs := OwnProperty(parsed, "opportunities").json.items;
          ExtractArray(id, text, e, s, t, parsed, jobs);
          ExtractArray(id, text', e', s, t', parsed, jobs);
        } else {
          ExtractNonArray(id, text, e, s, t, parsed);
          ExtractNonArray(id, text', e', s, t', parsed);
        }
    }
  }

  /**
   The extraction stage reads nothing of the environment but `JSON.parse`: how
   the raw-result update and the batch creation settle does not reach it.
   */
  lemma ExtractSeesOnlyParse(id: JsValue, text: string, env: Env, env': Env, s: UiState, t: seq<Call>)
    requires env'.parse == env.parse
    ensures ExtractAndPersist(id, text, env', s, t) == ExtractAndPersist(id, text, env, s, t)
  {
    if JsonSlice(text).None? {
      ExtractWithoutSlice(id, text, env, s, t);
      ExtractWithoutSlice(id, text, env', s, t);
    } else {
      match env.parse(JsonSlice(text).value)
      case SyntaxError(_) =>
      case Parsed(parsed) =>
        if OwnProperty(parsed, "opportunities").Val? && OwnProperty(parsed, "opportunities").json.JArray? {
          var jobs := OwnProperty(parsed, "opportunities").json.items;
          ExtractArray(id, text, env, s, t, parsed, jobs);
          ExtractArray(id, text, env', s, t, parsed, jobs);
        } else {
          ExtractNonArray(id, text, env, s, t, parsed);
          ExtractNonArray(id, text, env', s, t, parsed);
        }
    }
  }

  /** Every job with a skills array maps, field by field, in order. */
  lemma MapJobsFields(jobs: seq<Json>)
    requires forall k :: 0 <= k < |jobs| ==> HasSkillList(jobs[k])
    ensures MapJobs(jobs).Normal? && |MapJobs(jobs).value| == |jobs|
    ensures forall k :: 0 <= k < |jobs| ==> Mapped(jobs[k], MapJobs(jobs).value[k])
  {
    var drafts := MapJobs(jobs).value;
    forall k | 0 <= k < |jobs|
      ensures Mapped(jobs[k], drafts[k])
    {
      assert JobToDraft(jobs[k]) == Normal(drafts[k]);
    }
  }

  /** The first job without `skills` decides what the mapping throws. */
  lemma MapJobsMissingSkills(jobs: seq<Json>, k: nat)
    requires k < |jobs| && jobs[k].JObject? && "skills" !in jobs[k].fields
    requires forall m :: 0 <= m < k ==> HasSkillList(jobs[m])
    ensures MapJobs(jobs) == Throw(ErrorInstance(NullishReadMessage(Undefined, "join")))
  {
    assert OwnProperty(jobs[k], "skills") == Undefined;
  }

  /** `trim()` leaves nothing exactly when every character is whitespace. */
  lemma {:induction false} BlankMeansOnlyWhitespace(input: string)
    ensures IsBlank(input) <==> forall k :: 0 <= k < |input| ==> IsWhitespace(input[k])
  {
    var r1 := TrimStart(input);
    if forall k :: 0 <= k < |input| ==> IsWhitespace(input[k]) {
      assert Trim(input) == TrimEnd(r1);
    } else {
      var k :| 0 <= k < |input| && !IsWhitespace(input[k]);
      assert |input| - |r1| <= k;
      assert r1[k - (|input| - |r1|)] == input[k];
      var r2 := TrimEnd(r1);
      assert |r2| > k - (|input| - |r1|);
    }
  }

  /** Every field of the display state is overwritten when a run starts, so the prior state is forgotten. */
  lemma RunForgetsPriorDisplay(input: string, before: UiState, before': UiState, env: Env)
    requires !IsBlank(input)
    ensures FindOpportunities(input, before, env) == FindOpportunities(input, before', env)
  {
    RunIsSettledTry(input, before, env);
    RunIsSettledTry(input, before', env);
  }

  /** A falsy profile id ends the run at once: no model call, no store write, and the reset display. */
  lemma ProfileFailureStopsRun(input: string, before: UiState, env: Env)
    requires !IsBlank(input)
    ensures var r := FindOpportunities(input, before, env);
      Falsy(ProfileId(env)) <==> r.trace == [CreateProfileCall(input)]
    ensures Falsy(ProfileId(env)) ==>
      FindOpportunities(input, before, env).state == UiState(Some(ProfileFailedMessage), [], [], false)
  {
    RunIsSettledTry(input, before, env);
    if Falsy(ProfileId(env)) {
      ProfileFailedTry(input, env);
    } else if env.model.Rejected? {
      RejectedTry(input, env);
    } else {
      AnsweredTry(input, env);
    }
  }

  /** A failed model call is reported with its message (or the fallback) after two calls. */
  lemma ModelFailureReported(input: string, before: UiState, env: Env)
    requires !IsBlank(input) && !Falsy(ProfileId(env)) && env.model.Rejected?
    ensures var r := FindOpportunities(input, before, env);
      && r.trace == [CreateProfileCall(input), GenerateContentCall(ModelName, input)]
      && r.state == UiState(Some(ErrorMessage(env.model.thrown)), [], [], false)
    ensures env.model.thrown == NonError ==>
      FindOpportunities(input, before, env).state.error == Some(FallbackMessage)
  {
    RunIsSettledTry(input, before, env);
    RejectedTry(input, env);
  }

  /**
   Once the model answers, the raw-result update follows the model call, with
   the created profile id and the answer text, before anything is extracted; the
   grounding chunks are shown whatever happens afterwards.
   */
  lemma RawUpdateFollowsAnswer(input: string, before: UiState, env: Env)
    requires !IsBlank(input) && !Falsy(ProfileId(env)) && env.model.Answered?
    ensures var r := FindOpportunities(input, before, env);
      && 3 <= |r.trace|
      && r.trace[..3] == [
        CreateProfileCall(input),
        GenerateContentCall(ModelName, input),
        UpdateRawResultsCall(ProfileId(env), RawResults(env.model.text))]
      && r.state.groundingChunks == env.model.groundingChunks.GetOr([])
  {
    RunIsSettledTry(input, before, env);
    AnsweredTry(input, env);
    var a := TryBlock(input, env);
    assert a.trace[..3] == AnsweredPrefix(input, env);
  }

  /** How the raw-result update and the batch creation settle never changes the run. */
  lemma StoreWriteOutcomesIgnored(input: string, before: UiState, env: Env, rawFetch: FetchOutcome, batchFetch: FetchOutcome)
    ensures FindOpportunities(input, before, env.(rawFetch := rawFetch, batchFetch := batchFetch))
         == FindOpportunities(input, before, env)
  {
    var env' := env.(rawFetch := rawFetch, batchFetch := batchFetch);
    if !IsBlank(input) {
      RunIsSettledTry(input, before, env);
      RunIsSettledTry(input, before, env');
      assert ProfileId(env') == ProfileId(env);
      if Falsy(ProfileId(env)) {
        ProfileFailedTry(input, env);
        ProfileFailedTry(input, env');
      } else if env.model.Rejected? {
        RejectedTry(input, env);
        RejectedTry(input, env');
      } else {
        AnsweredTry(input, env);
        AnsweredTry(input, env');
        ExtractSeesOnlyParse(ProfileId(env), env.model.text, env, env', AnsweredState(env), AnsweredPrefix(input, env));
      }
    }
  }

  /** An answer without `{` or without `}` is reported and nothing is persisted. */
  lemma MissingBraceReported(input: string, before: UiState, env: Env)
    requires !IsBlank(input) && !Falsy(ProfileId(env)) && env.model.Answered?
    requires '{' !in env.model.text || '}' !in env.model.text
    ensures var r := FindOpportunities(input, before, env);
      && |r.trace| == 3
      && r.state == UiState(
        Some(NoJsonMessage),
        [], env.model.groundingChunks.GetOr([]), false)
  {
    RunIsSettledTry(input, before, env);
    AnsweredTry(input, env);
    ExtractWithoutSlice(ProfileId(env), env.model.text, env, AnsweredState(env), AnsweredPrefix(input, env));
  }

  /**
   Commentary the model puts before and after its JSON object changes nothing
   but the raw copy attached to the profile.
   */
  lemma {:induction false} CommentaryIgnored(
    input: string, before: UiState, env: Env, pre: string, core: string, post: string,
    chunks: Option<seq<GroundingChunk>>)
    requires '{' !in pre && '}' !in post
    requires |core| >= 2 && core[0] == '{' && core[|core| - 1] == '}'
    ensures var noisy := FindOpportunities(input, before, env.(model := Answered(pre + core + post, chunks)));
      var clean := FindOpportunities(input, before, env.(model := Answered(core, chunks)));
      && noisy.state == clean.state
      && |noisy.trace| == |clean.trace|
      && (|noisy.trace| > 3 ==> noisy.trace[3..] == clean.trace[3..])
  {
    SliceIgnoresNoise(pre, core, post);
    SliceIgnoresNoise("", core, "");
    assert "" + core + "" == core;
    var m, m' := Answered(pre + core + post, chunks), Answered(core, chunks);
    var e, e' := env.(model := m), env.(model := m');
    if !IsBlank(input) {
      RunIsSettledTry(input, before, e);
      RunIsSettledTry(input, before, e');
      assert ProfileId(e) == ProfileId(e');
      if Falsy(ProfileId(e)) {
        ProfileFailedTry(input, e);
        ProfileFailedTry(input, e');
      } else {
        AnsweredTry(input, e);
        AnsweredTry(input, e');
        ExtractSeesOnlySlice(ProfileId(env), pre + core + post, core, env, m, m',
          AnsweredState(e), AnsweredPrefix(input, e), AnsweredPrefix(input, e'));
      }
    }
  }

  /**
   A parsed answer whose `opportunities` is not an array is reported as a
   format error and nothing is persisted; a `null` parse result fails on the
   property read itself.
   */
  lemma NonArrayRejected(input: string, before: UiState, env: Env, parsed: Json)
    requires !IsBlank(input) && !Falsy(ProfileId(env)) && ParsedAnswer(env) == Some(parsed)
    requires !(OwnProperty(parsed, "opportunities").Val? && OwnProperty(parsed, "opportunities").json.JArray?)
    ensures var r := FindOpportunities(input, before, env);
      && |r.trace| == 3
      && r.state.opportunities == []
      && r.state.error == Some(
        if parsed == JNull then NullishReadMessage(Null, "opportunities")
        else BadFormatMessage)
  {
    RunIsSettledTry(input, before, env);
    AnsweredTry(input, env);
    ExtractNonArray(ProfileId(env), env.model.text, env, AnsweredState(env), AnsweredPrefix(input, env), parsed);
  }

  /**
   When `JSON.parse` rejects the slice, its own `SyntaxError` message is what
   the error slot shows; nothing is published and nothing is persisted.
   */
  lemma ParseFailureReported(input: string, before: UiState, env: Env, m: string)
    requires !IsBlank(input) && !Falsy(ProfileId(env)) && env.model.Answered?
    requires JsonSlice(env.model.text).Some? && env.parse(JsonSlice(env.model.text).value) == SyntaxError(m)
    ensures var r := FindOpportunities(input, before, env);
      && |r.trace| == 3
      && r.state == UiState(Some(m), [], env.model.groundingChunks.GetOr([]), false)
  {
    RunIsSettledTry(input, before, env);
    AnsweredTry(input, env);
  }

  /**
   An `opportunities` array is shown as it is, before the mapping runs; the run
   succeeds exactly when every job maps, and then the drafts go to the store in
   one call with the created profile id.
   */
  lemma OpportunitiesPublished(input: string, before: UiState, env: Env, parsed: Json, jobs: seq<Json>)
    requires !IsBlank(input) && !Falsy(ProfileId(env)) && ParsedAnswer(env) == Some(parsed)
    requires OwnProperty(parsed, "opportunities") == Val(JArray(jobs))
    ensures var r := FindOpportunities(input, before, env);
      && r.state.opportunities == jobs
      && (r.state.error == None <==> forall k :: 0 <= k < |jobs| ==> HasSkillList(jobs[k]))
      && (MapJobs(jobs).Normal? ==> r.trace[3..] == [CreateOportunidadesCall(ProfileId(env), MapJobs(jobs).value)])
      && (MapJobs(jobs).Throw? ==> |r.trace| == 3 && r.state.error == Some(ErrorMessage(MapJobs(jobs).thrown)))
  {
    RunIsSettledTry(input, before, env);
    AnsweredTry(input, env);
    var t := AnsweredPrefix(input, env);
    ExtractArray(ProfileId(env), env.model.text, env, AnsweredState(env), t, parsed, jobs);
    if MapJobs(jobs).Normal? {
      assert (t + [CreateOportunidadesCall(ProfileId(env), MapJobs(jobs).value)])[3..]
          == [CreateOportunidadesCall(ProfileId(env), MapJobs(jobs).value)];
    }
  }

  /**
   When every job has a skills array, the batch sent under the created profile
   holds one draft per job, in job order, with the fields the job supplies and
   the default schedule.
   */
  lemma BatchMapsEveryJob(input: string, before: UiState, env: Env, parsed: Json, jobs: seq<Json>)
    requires !IsBlank(input) && !Falsy(ProfileId(env)) && ParsedAnswer(env) == Some(parsed)
    requires OwnProperty(parsed, "opportunities") == Val(JArray(jobs))
    requires forall k :: 0 <= k < |jobs| ==> HasSkillList(jobs[k])
    ensures var r := FindOpportunities(input, before, env);
      && |r.trace| == 4 && r.trace[3].CreateOportunidadesCall? && r.trace[3].profileId == ProfileId(env)
      && |r.trace[3].drafts| == |jobs|
      && forall k :: 0 <= k < |jobs| ==> Mapped(jobs[k], r.trace[3].drafts[k])
  {
    MapJobsFields(jobs);
    OpportunitiesPublished(input, before, env, parsed, jobs);
    var r := FindOpportunities(input, before, env);
    assert r.trace[3] == r.trace[3..][0];
  }

  /**
   A job without `skills` makes `join` throw after the list is already shown:
   the list stays on screen next to the error and nothing is persisted.
   */
  lemma MissingSkillsAfterPublish(input: string, before: UiState, env: Env, parsed: Json, jobs: seq<Json>, k: nat)
    requires !IsBlank(input) && !Falsy(ProfileId(env)) && ParsedAnswer(env) == Some(parsed)
    requires OwnProperty(parsed, "opportunities") == Val(JArray(jobs))
    requires k < |jobs| && jobs[k].JObject? && "skills" !in jobs[k].fields
    requires forall m :: 0 <= m < k ==> HasSkillList(jobs[m])
    ensures var r := FindOpportunities(input, before, env);
      && r.state.opportunities == jobs
      && r.state.error == Some(NullishReadMessage(Undefined, "join"))
      && |r.trace| == 3
  {
    MapJobsMissingSkills(jobs, k);
    OpportunitiesPublished(input, before, env, parsed, jobs);
  }

  /** An empty `opportunities` array still issues the batch call, with no drafts, and succeeds. */
  lemma EmptyListStillPersisted(input: string, before: UiState, env: Env, parsed: Json)
    requires !IsBlank(input) && !Falsy(ProfileId(env)) && ParsedAnswer(env) == Some(parsed)
    requires OwnProperty(parsed, "opportunities") == Val(JArray([]))
    ensures var r := FindOpportunities(input, before, env);
      && r.trace[3..] == [CreateOportunidadesCall(ProfileId(env), [])]
      && r.state.error == None
      && r.state.opportunities == []
  {
    OpportunitiesPublished(input, before, env, parsed, []);
  }
}

=== FILE: extraction.dfy ===
/**
 The tolerant extractor of the discovery pipeline: the model is only asked to
 answer with a JSON object, so the pipeline cuts its answer from the first `{`
 to the last `}` and hands that slice to `JSON.parse`.
 */
module Extraction {
  import opened Wrappers
  import opened Js

  /** `i` is the position of the first `c` in `s`. */
  predicate FirstAt(s: string, c: char, i: int) {
    0 <= i < |s| && s[i] == c && c !in s[..i]
  }

  /** `j` is the position of the last `c` in `s`. */
  predicate LastAt(s: string, c: char, j: int) {
    0 <= j < |s| && s[j] == c && c !in s[j + 1..]
  }

  lemma FirstAtUnique(s: string, c: char, i: int, i': int)
    requires FirstAt(s, c, i) && FirstAt(s, c, i')
    ensures i == i'
  {
  }

  lemma LastAtUnique(s: string, c: char, j: int, j': int)
    requires LastAt(s, c, j) && LastAt(s, c, j')
    ensures j == j'
  {
  }

  /**
   The slice of `text` handed to `JSON.parse`, or `None` when `text` has no `{`
   or no `}` (the pipeline then reports that no JSON object was found). When the
   last `}` precedes the first `{`, `substring` swaps its bounds and the slice is
   the text strictly between the two.
   */
  function JsonSlice(text: string): (r: Option<string>)
    ensures r.None? <==> '{' !in text || '}' !in text
    ensures forall i, j :: FirstAt(text, '{', i) && LastAt(text, '}', j) ==>
      r == Some(if i < j then text[i..j + 1] else text[j + 1..i])
  {
    var start := IndexOf(text, '{');
    var end := LastIndexOf(text, '}') + 1;
    if start == -1 || end == 0 then None
    else
      var r := Some(Substring(text, start, end));
      assert forall i, j :: FirstAt(text, '{', i) && LastAt(text, '}', j) ==> i == start && j == end - 1 by {
        forall i, j | FirstAt(text, '{', i) && LastAt(text, '}', j)
          ensures i == start && j == end - 1
        {
          FirstAtUnique(text, '{', i, start);
          LastAtUnique(text, '}', j, end - 1);
        }
      }
      r
  }

  /** The slice begins with `{` and ends with `}` whenever the first `{` precedes the last `}`. */
  lemma SliceIsBraced(text: string, i: int, j: int)
    requires FirstAt(text, '{', i) && LastAt(text, '}', j) && i < j
    ensures JsonSlice(text).Some?
    ensures var s := JsonSlice(text).value;
      |s| == j - i + 1 && s[0] == '{' && s[|s| - 1] == '}'
  {
  }

  /**
   Commentary around the object does not change what is parsed: text before
   the object without a `{`, and text after it without a `}`, are cut away.
   */
  lemma {:induction false} SliceIgnoresNoise(pre: string, core: string, post: string)
    requires '{' !in pre && '}' !in post
    requires |core| >= 2 && core[0] == '{' && core[|core| - 1] == '}'
    ensures JsonSlice(pre + core + post) == Some(core)
  {
    var text := pre + core + post;
    var i, j := |pre|, |pre| + |core| - 1;
    assert text[..i] == pre;
    assert text[i] == '{';
    assert FirstAt(text, '{', i);
    assert text[j + 1..] == post;
    assert text[j] == '}';
    assert LastAt(text, '}', j);
    assert text[i..j + 1] == core;
  }

  /** Slicing an extracted object again leaves it as it is. */
  lemma {:induction false} SliceIdempotent(text: string, i: int, j: int)
    requires FirstAt(text, '{', i) && LastAt(text, '}', j) && i < j
    ensures JsonSlice(JsonSlice(text).value) == JsonSlice(text)
  {
    SliceIsBraced(text, i, j);
    var s := JsonSlice(text).value;
    SliceIgnoresNoise("", s, "");
    assert "" + s + "" == s;
  }

  /** With the last `}` before the first `{`, the swapped bounds cut out the text between them. */
  lemma SwappedBoundsExample()
    ensures JsonSlice("}x{") == Some("x")
    ensures JsonSlice("}{") == Some("")
  {
    assert FirstAt("}x{", '{', 2) && LastAt("}x{", '}', 0);
    assert "}x{"[1..2] == "x";
    assert FirstAt("}{", '{', 1) && LastAt("}{", '}', 0);
  }
}

=== FILE: js.dfy ===
/**
 The fragment of JavaScript semantics the discovery pipeline relies on: the
 values `JSON.parse` produces, truthiness, property reads (which throw on
 `null`/`undefined`), `String(v)`, `Array.prototype.join`, `String.prototype.trim`,
 `indexOf`/`lastIndexOf` of one character, and `substring`.
 */
module Js {

  /** A value as `JSON.parse` builds it. Numbers are restricted to integers. */
  datatype Json =
    | JNull
    | JBool(b: bool)
    | JNumber(n: int)
    | JString(s: string)
    | JArray(items: seq<Json>)
    | JObject(fields: map<string, Json>)

  /** A value reachable from parsed JSON by property reads: a JSON value or `undefined`. */
  datatype JsValue = Undefined | Val(json: Json)

  const Null: JsValue := Val(JNull)

  /** What a `throw` carries: an `Error` instance (with its `message`) or any other value. */
  datatype Thrown = ErrorInstance(message: string) | NonError

  /** How an expression or a statement block ends: with a value, or by throwing. */
  datatype Completion<+T> = Normal(value: T) | Throw(thrown: Thrown)

  /** The values `!v` is true of. */
  predicate Falsy(v: JsValue) {
    match v
    case Undefined => true
    case Val(j) =>
      match j
      case JNull => true
      case JBool(b) => !b
      case JNumber(n) => n == 0
      case JString(s) => s == ""
      case _ => false
  }

  predicate Nullish(v: JsValue) {
    v == Undefined || v == Null
  }

  /** The `TypeError` message of reading `key` from a nullish value (V8 wording). */
  function NullishReadMessage(base: JsValue, key: string): string {
    "Cannot read properties of " + (if base == Undefined then "undefined" else "null") + " (reading '" + key + "')"
  }

  /** The `TypeError` message of calling something that is not a function (V8 wording). */
  function NotAFunctionMessage(callee: string): string {
    callee + " is not a function"
  }

  /**
   What reading `key` from a value that does not throw yields, for a key that is
   none of the built-in prototype properties: only a JSON object's own property
   is found, and everything else is `undefined`.
   */
  function OwnProperty(j: Json, key: string): JsValue {
    if j.JObject? && key in j.fields then Val(j.fields[key]) else Undefined
  }

  /** `v[key]`: `null` and `undefined` throw a `TypeError`, every other value is looked up. */
  function GetProp(v: JsValue, key: string): (r: Completion<JsValue>)
    ensures r.Throw? <==> Nullish(v)
    ensures r.Throw? ==> r.thrown == ErrorInstance(NullishReadMessage(v, key))
    ensures r.Normal? ==> r.value == OwnProperty(v.json, key)
    ensures r.Normal? && r.value != Undefined ==> v.Val? && v.json.JObject? && key in v.json.fields
  {
    if Nullish(v) then Throw(ErrorInstance(NullishReadMessage(v, key)))
    else Normal(OwnProperty(v.json, key))
  }

  /** The character of decimal digit `d`. */
  function DigitChar(d: nat): (c: char)
    requires d < 10
    ensures '0' <= c <= '9' && c as int - '0' as int == d
  {
    ('0' as int + d) as char
  }

  predicate AllDigits(s: string) {
    forall k :: 0 <= k < |s| ==> '0' <= s[k] <= '9'
  }

  /** The number a string of decimal digits denotes, most significant digit first. */
  function DigitsValue(s: string): nat
    requires AllDigits(s)
  {
    if |s| == 0 then 0 else DigitsValue(s[..|s| - 1]) * 10 + (s[|s| - 1] as int - '0' as int)
  }

  /** Decimal digits of a natural number, most significant first, with no leading zero. */
  function Digits(n: nat): (s: string)
    ensures |s| >= 1 && AllDigits(s)
    ensures s[0] == '0' <==> n == 0
    ensures n == 0 ==> s == "0"
    decreases n
  {
    if n < 10 then [DigitChar(n)] else Digits(n / 10) + [DigitChar(n % 10)]
  }

  /** Reading the digits back gives the number. */
  lemma {:induction false} DigitsRoundTrip(n: nat)
    ensures DigitsValue(Digits(n)) == n
    decreases n
  {
    var s := Digits(n);
    if n < 10 {
      assert s[..|s| - 1] == [];
    } else {
      DigitsRoundTrip(n / 10);
      assert s[..|s| - 1] == Digits(n / 10);
    }
  }

  /**
   `String(n)` for an integer below 10^21 in magnitude: a minus sign exactly
   for a negative number, then the digits of its magnitude.
   */
  function NumberToString(n: int): (s: string)
    ensures |s| >= 2 || (|s| == 1 && s[0] != '-')
    ensures s[0] == '-' <==> n < 0
    ensures n < 0 ==> AllDigits(s[1..]) && DigitsValue(s[1..]) == -n && s[1] != '0'
    ensures n >= 0 ==> AllDigits(s) && DigitsValue(s) == n
    ensures n > 0 ==> s[0] != '0'
  {
    if n < 0 then
      DigitsRoundTrip(-n);
      var s := "-" + Digits(-n);
      assert s[1..] == Digits(-n);
      s
    else
      DigitsRoundTrip(n);
      Digits(n)
  }

  /** The `TypeError` message of converting an object none of whose conversion methods is callable (V8 wording). */
  const NoPrimitiveMessage := "Cannot convert object to primitive value"

  /**
   `String(v)` succeeds: an object converts unless it has its own `toString`
   (which, coming from JSON, is not callable, while the inherited `valueOf`
   returns the object itself), and an array converts when all its elements do.
   */
  predicate Convertible(v: Json)
    decreases v
  {
    match v
    case JArray(items) => forall k :: 0 <= k < |items| ==> Convertible(items[k])
    case JObject(fields) => "toString" !in fields
    case _ => true
  }

  /** `String(v)`, which is also what a template literal `${v}` inserts. */
  function ToJsString(v: Json): (r: Completion<string>)
    ensures r.Normal? <==> Convertible(v)
    ensures r.Throw? ==> r.thrown == ErrorInstance(NoPrimitiveMessage)
    ensures v == JNull ==> r == Normal("null")
    ensures v.JBool? ==> r == Normal(if v.b then "true" else "false")
    ensures v.JNumber? ==> r == Normal(NumberToString(v.n))
    ensures v.JString? ==> r == Normal(v.s)
    ensures v.JArray? ==> r == ArrayJoin(v.items, ",")
    ensures v.JObject? && r.Normal? ==> r.value == "[object Object]"
    decreases v, 0
  {
    match v
    case JNull => Normal("null")
    case JBool(b) => Normal(if b then "true" else "false")
    case JNumber(n) => Normal(NumberToString(n))
    case JString(s) => Normal(s)
    case JArray(items) => ArrayJoin(items, ",")
    case JObject(fields) =>
      if "toString" in fields then Throw(ErrorInstance(NoPrimitiveMessage)) else Normal("[object Object]")
  }

  /** `String(v)` extended to `undefined`. */
  function TemplateString(v: JsValue): (r: Completion<string>)
    ensures r.Normal? <==> v == Undefined || Convertible(v.json)
    ensures r.Throw? ==> r.thrown == ErrorInstance(NoPrimitiveMessage)
    ensures v == Undefined ==> r == Normal("undefined")
    ensures v.Val? ==> r == ToJsString(v.json)
  {
    match v
    case Undefined => Normal("undefined")
    case Val(j) => ToJsString(j)
  }

  /** How `Array.prototype.join` renders one element: `null` becomes the empty string. */
  function JoinElement(x: Json): (r: Completion<string>)
    ensures r.Normal? <==> Convertible(x)
    ensures r.Throw? ==> r.thrown == ErrorInstance(NoPrimitiveMessage)
    ensures x == JNull ==> r == Normal("")
    ensures x != JNull ==> r == ToJsString(x)
    decreases x, 1
  {
    if x == JNull then Normal("") else ToJsString(x)
  }

  /**
   `items.join(sep)`: the rendered elements with `sep` between them, or the
   `TypeError` of the first element that does not convert.
   */
  function ArrayJoin(items: seq<Json>, sep: string): (r: Completion<string>)
    ensures r.Normal? <==> forall k :: 0 <= k < |items| ==> Convertible(items[k])
    ensures r.Throw? ==> r.thrown == ErrorInstance(NoPrimitiveMessage)
    ensures |items| == 0 ==> r == Normal("")
    ensures |items| == 1 ==> r == JoinElement(items[0])
    decreases items
  {
    if |items| == 0 then Normal("")
    else
      match JoinElement(items[0])
      case Throw(t) => Throw(t)
      case Normal(head) =>
        if |items| == 1 then Normal(head)
        else
          match ArrayJoin(items[1..], sep)
          case Throw(t) =>
            assert forall k :: 1 <= k < |items| ==> items[1..][k - 1] == items[k];
            Throw(t)
          case Normal(tail) =>
            assert forall k :: 1 <= k < |items| ==> items[1..][k - 1] == items[k];
            Normal(head + sep + tail)
  }

  /**
   Joining one more element appends the separator and that element's text:
   the joined text is the elements' texts in order with `sep` between them.
   */
  lemma {:induction false} ArrayJoinSnoc(xs: seq<Json>, x: Json, sep: string)
    requires |xs| >= 1 && Convertible(x)
    requires forall k :: 0 <= k < |xs| ==> Convertible(xs[k])
    ensures ArrayJoin(xs + [x], sep) == Normal(ArrayJoin(xs, sep).value + sep + JoinElement(x).value)
    decreases |xs|
  {
    var ys := xs + [x];
    assert ys[0] == xs[0];
    if |xs| == 1 {
      assert ys[1..] == [x];
    } else {
      assert ys[1..] == xs[1..] + [x];
      assert forall k :: 0 <= k < |xs[1..]| ==> xs[1..][k] == xs[k + 1];
      ArrayJoinSnoc(xs[1..], x, sep);
      var head := JoinElement(xs[0]).value;
      var mid := ArrayJoin(xs[1..], sep).value;
      var last := JoinElement(x).value;
      assert head + sep + (mid + sep + last) == (head + sep + mid) + sep + last;
    }
  }

  /** `["a", null, "b"].join(", ")` is `"a, , b"`: a `null` element leaves an empty slot. */
  lemma JoinNullExample()
    ensures ArrayJoin([JString("a"), JNull, JString("b")], ", ") == Normal("a, , b")
  {
    ArrayJoinSnoc([JString("a"), JNull], JString("b"), ", ");
    assert [JString("a"), JNull] + [JString("b")] == [JString("a"), JNull, JString("b")];
    assert [JString("a"), JNull][1..] == [JNull];
    assert ArrayJoin([JString("a"), JNull], ", ") == Normal("a" + ", " + "");
    assert "a" + ", " + "" + ", " + "b" == "a, , b";
  }

  /** The characters `String.prototype.trim` removes: WhiteSpace and LineTerminator of ECMA-262. */
  predicate IsWhitespace(c: char) {
    || c == '\t' || c == '\n' || c == '\U{000B}' || c == '\U{000C}' || c == '\r' || c == ' '
    || c == '\U{00A0}' || c == '\U{1680}' || ('\U{2000}' <= c <= '\U{200A}')
    || c == '\U{2028}' || c == '\U{2029}' || c == '\U{202F}' || c == '\U{205F}'
    || c == '\U{3000}' || c == '\U{FEFF}'
  }

  /** `s` with its leading whitespace removed. */
  function TrimStart(s: string): (r: string)
    ensures |r| <= |s| && r == s[|s| - |r|..]
    ensures forall k :: 0 <= k < |s| - |r| ==> IsWhitespace(s[k])
    ensures r == [] || !IsWhitespace(r[0])
  {
    if |s| == 0 || !IsWhitespace(s[0]) then s else TrimStart(s[1..])
  }

  /** `s` with its trailing whitespace removed. */
  function TrimEnd(s: string): (r: string)
    ensures |r| <= |s| && r == s[..|r|]
    ensures forall k :: |r| <= k < |s| ==> IsWhitespace(s[k])
    ensures r == [] || !IsWhitespace(r[|r| - 1])
  {
    if |s| == 0 || !IsWhitespace(s[|s| - 1]) then s else TrimEnd(s[..|s| - 1])
  }

  /** `s.trim()`. */
  function Trim(s: string): string {
    TrimEnd(TrimStart(s))
  }

  /** `s.indexOf(c)`: the position of the first `c`, or -1. */
  function IndexOf(s: string, c: char): (r: int)
    ensures -1 <= r < |s|
    ensures r == -1 <==> c !in s
    ensures 0 <= r ==> s[r] == c && c !in s[..r]
  {
    if |s| == 0 then -1
    else if s[0] == c then 0
    else
      assert s == [s[0]] + s[1..];
      var k := IndexOf(s[1..], c);
      if k == -1 then -1
      else
        assert s[..k + 1] == [s[0]] + s[1..][..k];
        k + 1
  }

  /** The position of the last `c` among the first `n` characters of `s`, or -1. */
  function LastIndexBefore(s: string, c: char, n: nat): (r: int)
    requires n <= |s|
    ensures -1 <= r < n
    ensures r == -1 <==> forall k :: 0 <= k < n ==> s[k] != c
    ensures 0 <= r ==> s[r] == c && forall k :: r < k < n ==> s[k] != c
  {
    if n == 0 then -1 else if s[n - 1] == c then n - 1 else LastIndexBefore(s, c, n - 1)
  }

  /** `s.lastIndexOf(c)`: the position of the last `c`, or -1. */
  function LastIndexOf(s: string, c: char): (r: int)
    ensures -1 <= r < |s|
    ensures r == -1 <==> c !in s
    ensures 0 <= r ==> s[r] == c && c !in s[r + 1..]
  {
    var r := LastIndexBefore(s, c, |s|);
    if r == -1 then
      assert c !in s by {
        forall k | 0 <= k < |s| ensures s[k] != c {}
      }
      r
    else
      var tail := s[r + 1..];
      assert c !in tail by {
        forall k | 0 <= k < |tail| ensures tail[k] != c {
          assert tail[k] == s[r + 1 + k];
        }
      }
      r
  }

  function Clamp(i: int, len: nat): (r: nat)
    ensures r <= len
  {
    if i < 0 then 0 else if i > len then len else i
  }

  /**
   `s.substring(start, end)`: both ends are clamped to the string, and the two
   are swapped when `start` lies after `end`.
   */
  function Substring(s: string, start: int, end: int): string {
    var a := Clamp(start, |s|);
    var b := Clamp(end, |s|);
    if a <= b then s[a..b] else s[b..a]
  }
}

=== FILE: wrappers.dfy ===
/** Optional values, used for the absent cases of the model. */
module Wrappers {

  datatype Option<+T> = None | Some(value: T) {

    /** The wrapped value, or `default` when absent. */
    function GetOr(default: T): T {
      match this
      case Some(v) => v
      case None => default
    }
  }
}
